=== FILE: README.md ===
# Video annotation tool — a Dafny model of its core

`video_annotator.py` is a desktop tool. It opens a video and moves a frame cursor over it by stepping, playing, dragging a slider and clicking a timeline. It keeps a store of annotations, each tied to one frame, shows them as a list sorted by frame number, exports them to CSV and imports them back. This project models that core without the widgets:

- **`Tool.AnnotationTool`** is a class whose fields are the tool's state: whether a video is open, the frame count, the frame rate, the timer delay, the current frame and time, whether playback runs, and the annotation store. Each user command is a method. It says how the state changes and what the command reports (`Notice`): the message box it shows, or, for adding and deleting, which show none, the change it made. Anything the user enters arrives as a parameter: a confirmation, the selected list row, a typed value, the outcome of a file dialog. Every command that changes the state keeps the invariant `Valid()`:
  - the cursor lies in `[0, LastFrame]`;
  - the current time is the current frame divided by the rate;
  - playback runs only with a video open;
  - every stored record has a category of the fixed set, that category's colour, and a frame in `[0, LastFrame]`.
- **`Annotations`** covers the store as values:
  - the record;
  - the filter that deletion applies (`WithoutFrame`);
  - the search that editing performs (`FindFirstAtFrame`, a loop);
  - the stable sort by frame number (`SortByFrame`), which the list view and the export both show.
- **`Import`** covers reading an annotation file: the header check and the row loop (`ImportRows`), against the store the loop builds (`Imported`).
- **`Playback`** covers the cursor arithmetic: the last frame, one tick of the playback loop, and the frame a timeline click selects.
- **`Text`** models Python's `str.strip` and the 30-character label of the list view.
- **`Categories`** holds the six categories and their colours.
- **`Scenarios`** calls a few commands in sequence and proves the outcomes from the method contracts alone.

The model follows the code as written, including three behaviours worth knowing:

- **Header check.** The import header check rejects a file that has a column outside the five known ones. It does not reject a file that lacks one of them. Such a file passes the check, then every row fails when its missing cell is read, so nothing is loaded (`Import.MissingColumnLoadsNothing`).
- **Ids.** A new record's id is the store length when it is added. After a deletion, ids repeat (`Scenarios.IdsRepeatAfterDelete`).
- **Deletion.** Deletion removes every record on the selected row's frame, not only the selected record. Adding a record and then deleting its frame therefore gives back the old store exactly when the old store had nothing on that frame (`Annotations.AddThenDelete`).

## Model

| member | source | states |
|---|---|---|
| Text.Strip | video_annotator.py:429-434 | The result is no longer than the input, neither starts nor ends with whitespace (Python's `isspace` set), and is empty exactly when the input is blank. |
| Text.StripRemovesOnlyWhitespace | video_annotator.py:429-434 | The input is blank text, then the stripped result, then blank text: strip only removes whitespace at the two ends. |
| Text.StripUnpadded | video_annotator.py:429-434 | A string that neither starts nor ends with whitespace is left as it is. |
| Text.StripIdempotent | video_annotator.py:429-434 | Stripping twice gives what stripping once gives. |
| Text.ShortLabel | video_annotator.py:473 | A text of at most 30 characters is shown whole. A longer one is shown as its first 30 characters followed by "...", 33 characters in all. |
| Categories.Coerce | video_annotator.py:623-632 | An imported Category cell gives a key of the colour map: a known name is kept, and an empty cell or an unknown name becomes "Other". |
| Annotations.StoreValidAppend | video_annotator.py:437-447 | Appending a well-formed record keeps every record of the store well formed. |
| Annotations.StoreValidUpdate | video_annotator.py:253-257 | Replacing one record by a well-formed record keeps every record of the store well formed. |
| Annotations.WithoutFrame | video_annotator.py:505-506 | Deletion keeps only records that were in the store and are not on the deleted frame. |
| Annotations.WithoutFrameSplits | video_annotator.py:505-506 | The records kept and the records on the deleted frame together are exactly the old store (as a multiset); their counts add up. |
| Annotations.WithoutFrameKeepsOtherFrames | video_annotator.py:505-506 | After deletion no record remains on the frame, and the records of every other frame are unchanged and in their old order. |
| Annotations.AtFrameAppend | video_annotator.py:505-506 | The records on a frame of a concatenation are those of the first part followed by those of the second. |
| Annotations.WithoutFrameAppend | video_annotator.py:505-506 | Deletion from a concatenation is deletion from each part, concatenated. |
| Annotations.WithoutAbsentFrame | video_annotator.py:505-506 | Deleting a frame that has no record changes nothing. |
| Annotations.AddThenDelete | video_annotator.py:495-506 | Adding a record and deleting its frame equals deleting that frame from the old store. It is the old store exactly when the old store had nothing on that frame. |
| Annotations.FindFirstAtFrame | video_annotator.py:197-202 | Returns the first index in store order whose record is on the frame, or None exactly when no record is on it. |
| Annotations.InsertByFrame | video_annotator.py:463 | Insertion adds exactly one occurrence of the record (length and multiset). |
| Annotations.SortByFrame | video_annotator.py:463 | The sorted projection has as many records as the store. |
| Annotations.SortedCons | video_annotator.py:463 | A record no later than every record of a sorted sequence can be put in front and keep it sorted. |
| Annotations.InsertSorted | video_annotator.py:463 | Inserting into a sequence sorted by frame keeps it sorted. |
| Annotations.SortByFrameSorted | video_annotator.py:463 | The projection is ascending by frame number. |
| Annotations.SortByFramePermutes | video_annotator.py:463 | The projection is a permutation of the store. |
| Annotations.InsertAtFrame | video_annotator.py:463 | Insertion puts the record ahead of the others on its own frame and leaves every other frame's records in order. |
| Annotations.SortByFrameStable | video_annotator.py:463 | The sort is stable: for every frame, the records on it appear in the projection in store order. |
| Annotations.SortOfSorted | video_annotator.py:463 | A store already sorted by frame is its own projection. |
| Annotations.SortedStoreValid | video_annotator.py:457-477 | Every record of the projection comes from the store, so the frame of any list row is a frame of the video. |
| Annotations.ListedFrameStored | video_annotator.py:187-202 | Every row of the annotation list shows the frame of some stored record, so the edit command's search for that frame always finds one. |
| Annotations.ListRows | video_annotator.py:457-477 | The annotation list has one row per record. |
| Annotations.ToCsvRow | video_annotator.py:568-574 | Definition: a record's exported row holds its frame, time, text, comment and category, in the order of the five columns. |
| Annotations.ExportRows | video_annotator.py:567-574 | The exported rows are the rows of the store sorted by frame, one per record. |
| Annotations.CsvRows | video_annotator.py:567-574 | One CSV row per record. |
| Annotations.CsvRowsCons | video_annotator.py:567-574 | The rows of a record followed by a store are that record's row followed by the store's rows. |
| Annotations.CsvRowsConsCount | video_annotator.py:567-574 | The same, counted as multisets. |
| Annotations.CsvRowsInsert | video_annotator.py:567-574 | Sorting-by-insertion adds exactly the inserted record's row to the multiset of rows. |
| Annotations.CsvRowsInsertBehind | video_annotator.py:567-574 | The same, for a record inserted behind the first record. |
| Annotations.CsvRowsAt | video_annotator.py:567-574 | Row k of the export is the row of record k of the sequence exported. |
| Annotations.ExportRowsPermutation | video_annotator.py:567-574 | The exported rows are exactly the rows of the store's records, each as often. |
| Annotations.ExportRowsSortedPermutation | video_annotator.py:567-574 | The export has one row per record, is ascending by Frame Number, and is a permutation of the records' rows. |
| Import.UnknownColumns | video_annotator.py:599-600 | Reports exactly the header columns that are not among the five known columns: each reported column is in the header and unknown, and every unknown header column is reported. |
| Import.HeaderAcceptedIff | video_annotator.py:599-604 | The header check passes exactly when every header column is one of the five known columns. |
| Import.Keeps | video_annotator.py:619-628 | Definition: a row is kept when all five columns can be read, its cells convert, and its frame lies in `[0, total_frames)`; any other row is skipped. |
| Import.Record | video_annotator.py:634-642 | A kept row becomes a record with the given id, the row's frame and time, a category of the fixed set with its colour, and the row's own category whenever that is a known one. |
| Import.Imported | video_annotator.py:611-649 | The store the row loop builds has at most one record per row. |
| Import.CountKeptSnoc | video_annotator.py:617-649 | Appending a row adds one to the kept count exactly when that row is kept. |
| Import.ImportedCount | video_annotator.py:614-649 | The loaded count is the number of rows kept. |
| Import.ImportedWellFormed | video_annotator.py:626-644 | Every loaded record has its position as id, a frame in `[0, total_frames)`, a category of the fixed set and that category's colour. |
| Import.MissingColumnLoadsNothing | video_annotator.py:599-649 | A header that lacks one of the five columns loads no record: every row is skipped. |
| Import.OutOfRangeRowSkipped | video_annotator.py:626-628 | A row whose frame lies outside the video changes nothing in the loaded store. |
| Import.UnknownCategoryLoadsAsOther | video_annotator.py:630-632 | A kept row with an unknown category is loaded, as "Other". |
| Import.ImportRows | video_annotator.py:611-649 | The loop builds exactly `Imported`; loaded is the number of records and loaded + skipped is the number of rows; every record is well formed with its position as id. |
| Playback.LastFrame | video_annotator.py:374-376 | The largest frame the cursor can reach is `total_frames - 1` for a non-empty video and never negative. |
| Playback.Seconds | video_annotator.py:390 | The time of a frame multiplied by the rate gives the frame back, and it is never negative for a frame of the video. |
| Playback.FrameDelay | video_annotator.py:295 | The timer delay is `1000 // fps`: the largest whole number of milliseconds whose product with the rate does not exceed one second. |
| Playback.Tick | video_annotator.py:366-372 | One tick moves the cursor forward by at most one frame. It moves only while playing and never past the last frame, and a stopped playhead never starts again. |
| Playback.Ticks | video_annotator.py:366-372 | After n ticks the cursor has moved forward by at most n frames, and playback runs only if it was running before. |
| Playback.StoppedStaysPut | video_annotator.py:366-372 | Once playback has stopped, further ticks change nothing. |
| Playback.PlaybackRunsToLastFrame | video_annotator.py:366-372 | Started on a frame of the video, after n ticks playback is at frame `min(start + n, total_frames - 1)`; it still runs exactly while that frame has not been reached before. |
| Playback.TicksStayInRange | video_annotator.py:366-377 | Ticks keep the cursor in `[0, LastFrame]` and never move it backwards. |
| Playback.TruncDiv | video_annotator.py:547 | Python's `int()` of a quotient, truncating toward zero: for a non-negative dividend, the quotient whose multiple of the divisor is the largest not above the dividend; for a negative one, the quotient whose multiple is the smallest not below it. |
| Playback.ClickTarget | video_annotator.py:545-548 | The clicked frame is always one the cursor can show. |
| Playback.ClickHitsFrameSlot | video_annotator.py:545-548 | A click inside the timeline selects the frame whose slot on the timeline contains it, and the clamp does not alter it. |
| Tool.AnnotationTool.constructor | video_annotator.py:12-36 | No video, 0 frames, 30 fps, a delay of 33 ms, frame 0 at time 0, not playing, and an empty store; the invariant holds. |
| Tool.AnnotationTool.LoadVideo | video_annotator.py:283-307 | Takes the reported frame count, and the reported rate (the decoder's value truncated to an integer by `int()`, so 29.97 becomes 29) or 30 when that is 0. The delay becomes `1000 // fps`. The cursor returns to frame 0 at time 0, playback stops and the store is emptied. |
| Tool.AnnotationTool.UpdateFrameDisplay | video_annotator.py:388-390 | The current time becomes the current frame divided by the rate. |
| Tool.AnnotationTool.NextFrame | video_annotator.py:374-377 | With a video and before the last frame the cursor moves forward one frame; otherwise it stays. Playback is untouched and the invariant holds. |
| Tool.AnnotationTool.PrevFrame | video_annotator.py:379-386 | With a video and after frame 0 the cursor moves back one frame and playback stops; otherwise nothing changes. |
| Tool.AnnotationTool.PlayTick | video_annotator.py:366-372 | The new frame and playing flag are one `Tick` of the old ones. |
| Tool.AnnotationTool.TogglePlayback | video_annotator.py:354-364 | Without a video nothing changes. Pausing stops playback in place. Starting runs one tick at once, so starting on the last frame stops again. |
| Tool.AnnotationTool.OnTimelineChange | video_annotator.py:396-403 | With a video the cursor moves to the truncated slider value and playback stops; without one nothing changes. |
| Tool.AnnotationTool.OnTimelineClick | video_annotator.py:537-551 | With a video the cursor moves to `ClickTarget` of the click and playback stops; without one nothing changes. |
| Tool.AnnotationTool.JumpToAnnotation | video_annotator.py:479-493 | Without a selection it reports so and changes nothing. Otherwise playback stops and the cursor moves to the frame of the selected list row. |
| Tool.AnnotationTool.UpdateFps | video_annotator.py:405-414 | A positive integer entry becomes the rate, the delay becomes `1000 // fps`, and the time is recomputed. Anything else leaves rate, delay and time as they were. |
| Tool.AnnotationTool.AddAnnotation | video_annotator.py:424-447 | Refused without a video or with a blank text, and the store is unchanged. Otherwise exactly one record is appended: id = old store length, the current frame and time, stripped text and comment, the category and its colour. |
| Tool.AnnotationTool.DeleteAnnotation | video_annotator.py:495-506 | Without a selection or without confirmation the store is unchanged. Otherwise every record on the selected row's frame is removed and the rest keep their order. |
| Tool.AnnotationTool.EditAnnotation | video_annotator.py:187-265 | Edits the first record in store order on the selected row's frame; for a selected row such a record always exists, so "not found" is never reported. Saving replaces its category, text, stripped comment and colour, and keeps its id, frame, time and every other record. Without a selection or on cancel the store is unchanged. |
| Tool.AnnotationTool.ExportCsv | video_annotator.py:553-574 | An empty store is refused. Otherwise, once a file is chosen, the rows written are `ExportRows` of the store. |
| Tool.AnnotationTool.LoadAnnotations | video_annotator.py:583-649 | The store is unchanged without a video, with no table read, with an unknown header column (reported by name), or when replacing a non-empty store is declined. Otherwise the store becomes `Imported` of the rows, with loaded + skipped = number of rows. |
| Scenarios.DeleteFirstOfTwo | video_annotator.py:495-506 | Two records on frames 0 and 1 are already in list order, and deleting frame 0 leaves the second one. |
| Scenarios.TwoRecords | video_annotator.py:424-447 | Adding on frame 0, stepping, and adding on frame 1 gives two records with ids 0 and 1. |
| Scenarios.MixedRowsLoadOne | video_annotator.py:617-649 | Of one row outside the video, one with an unknown category and one that does not convert, only the second is loaded, as "Other" on frame 12. |
| Scenarios.DoorOpens | video_annotator.py:424-447 | On a 300-frame, 30 fps video, an annotation added at frame 90 is stored with time 3.0 and the stripped comment, and is exported as the row 90, 3.0, "Door opens", "", Event. |
| Scenarios.StepPastLastFrame | video_annotator.py:354-377 | Stepping forward from the last frame keeps the cursor there, and starting playback there stops it at once. |
| Scenarios.ClickTwice | video_annotator.py:537-551 | A click at x = 250 on a 500-pixel timeline of a 300-frame video selects frame 150; the same click again changes nothing. |
| Scenarios.IdsRepeatAfterDelete | video_annotator.py:437-447 | Adding on frames 0 and 1, deleting frame 0 and adding again leaves two records that both have id 1. |
| Scenarios.ImportMixedRows | video_annotator.py:583-662 | Loading a file with all five columns and three mixed rows into a 300-frame video reports one loaded and two skipped, and the loaded record is "Other" on frame 12. |

## Left out

- Video decoding, frame display and resizing (`show_frame`), the timeline drawing (`draw_timeline`), the time text (`update_info`, the list's mm:ss.mmm column), message boxes and file dialogs. The dialogs' outcomes and the confirmations are parameters; a message box is a `Notice`.
- The rescheduling of the playback loop through the Tk timer. `PlayTick` is one tick and `Playback.Ticks` is any number of them. Concurrent events between ticks are not modelled.
- Floating point. Times are exact reals (`frame / fps`); the click target uses `(x * total_frames) // width` rather than the float product `x / width * total_frames`; `round(time, 3)` on export is not applied.
- Reading and writing CSV text. This covers pandas type inference, NaN cells and the conversion of cells to int/float. A row arrives either converted (`Import.Row.Coerced`) or as one that fails to convert (`Uncoercible`). The export-then-import round trip is therefore not stated.
- A failing write during export. The tool reports it as an error and the store stays as it was. The model's `ExportCsv` reports `Exported` whenever a file was chosen.
- An exception during import that the row handler does not catch. It aborts the import and leaves the store as far as the loop got, without refreshing the list.
- Import.ImportRows: every failed cell conversion is an `Uncoercible` row that is skipped and counted. A Frame Number cell that reads as infinite raises `OverflowError` in `int()`, which the row handler (it catches only `ValueError` and `KeyError`) lets through, so the import aborts part-way; that abort is not modelled.
- `validate_annotation_file`, which nothing calls.
- Tool.AnnotationTool.LoadVideo: assumes the decoder reports a non-negative frame count and rate, both passed in after `int()` truncation. A capture that fails to open reports 0 frames and is modelled as a video with no frames. The success message box it shows, with the frame count and rate, is not returned as a `Notice`.
- Tool.AnnotationTool.OnTimelineChange: requires the value to lie in the slider range `[0, total_frames - 1]`. The reversed range `[0, -1]` that the slider gets for a video with no frames is not modelled.
- Tool.AnnotationTool.OnTimelineClick: requires a positive canvas width. A zero-width canvas, which would divide by zero, is not modelled.
- Tool.AnnotationTool.UpdateFps: a non-integer entry is `None`. Reverting the text shown in the field is not modelled.
- Tool.AnnotationTool.AddAnnotation: requires the category to be one of the six, since the category chooser is a read-only list of those six.
- Tool.AnnotationTool.EditAnnotation: requires the submitted category to be one of the six, for the same reason. The selection is an index into the annotation list (`ListRows`), so the selected row exists; the search for its frame then cannot fail (`Annotations.ListedFrameStored`), and the "not found" branch is unreachable.
- Tool.AnnotationTool.JumpToAnnotation: the selection is an index into the annotation list, so it names a row that exists. The row's frame is read from the list rather than parsed from its text.
- Tool.AnnotationTool.DeleteAnnotation: the selection is an index into the annotation list, as for `JumpToAnnotation`.

=== FILE: annotations.dfy ===
/**
 * The annotation store as values: the record kept per annotation, the filter
 * that deletion applies, the lookup that editing performs, and the projection
 * sorted by frame that both the annotation list and the CSV export show.
 */
module Annotations {
  import opened Wrappers
  import Categories
  import Text

  /**
   * One annotation. `text` is the label (the "annotation" key of the record),
   * `time` the time instant in seconds, copied through unchanged once stored.
   */
  datatype Annotation = Annotation(
    id: int,
    frame: int,
    time: real,
    text: string,
    comment: string,
    category: string,
    color: string)

  /** A record whose category is one of the fixed set, whose colour is that category's, and whose frame lies in [0, lastFrame]. */
  predicate WellFormed(a: Annotation, lastFrame: int) {
    a.category in Categories.Colors && a.color == Categories.Colors[a.category] && 0 <= a.frame <= lastFrame
  }

  /** Every record of the store is well formed. */
  predicate StoreValid(s: seq<Annotation>, lastFrame: int) {
    forall a :: a in s ==> WellFormed(a, lastFrame)
  }

  /** Appending a well-formed record to a valid store keeps it valid. */
  lemma StoreValidAppend(s: seq<Annotation>, a: Annotation, lastFrame: int)
    requires StoreValid(s, lastFrame) && WellFormed(a, lastFrame)
    ensures StoreValid(s + [a], lastFrame)
  {
  }

  /** Replacing one record of a valid store by a well-formed record keeps it valid. */
  lemma StoreValidUpdate(s: seq<Annotation>, i: nat, a: Annotation, lastFrame: int)
    requires i < |s| && StoreValid(s, lastFrame) && WellFormed(a, lastFrame)
    ensures StoreValid(s[i := a], lastFrame)
  {
    forall b | b in s[i := a] ensures WellFormed(b, lastFrame) {
      var k :| 0 <= k < |s[i := a]| && s[i := a][k] == b;
      if k != i { assert b == s[k]; }
    }
  }

  /** The records of `s` on frame `f`, in store order. */
  function AtFrame(s: seq<Annotation>, f: int): (r: seq<Annotation>)
    ensures |r| <= |s|
  {
    if s == [] then [] else (if s[0].frame == f then [s[0]] else []) + AtFrame(s[1..], f)
  }

  /** What deleting the selected row leaves: the records of `s` NOT on frame `f`, in store order. */
  function WithoutFrame(s: seq<Annotation>, f: int): (r: seq<Annotation>)
    ensures |r| <= |s|
    ensures forall a :: a in r ==> a in s && a.frame != f
  {
    if s == [] then [] else (if s[0].frame != f then [s[0]] else []) + WithoutFrame(s[1..], f)
  }

  /** Deletion splits the store: what is kept and what was on frame `f` together make up the old store. */
  lemma {:induction false} WithoutFrameSplits(s: seq<Annotation>, f: int)
    ensures multiset(WithoutFrame(s, f)) + multiset(AtFrame(s, f)) == multiset(s)
    ensures |WithoutFrame(s, f)| + |AtFrame(s, f)| == |s|
  {
    if s != [] {
      WithoutFrameSplits(s[1..], f);
      assert s == [s[0]] + s[1..];
    }
  }

  /**
   * Deletion removes every record on frame `f` and keeps the records of every
   * other frame, each frame's records in their original order.
   */
  lemma {:induction false} WithoutFrameKeepsOtherFrames(s: seq<Annotation>, f: int, g: int)
    ensures AtFrame(WithoutFrame(s, f), f) == []
    ensures g != f ==> AtFrame(WithoutFrame(s, f), g) == AtFrame(s, g)
  {
    if s != [] {
      WithoutFrameKeepsOtherFrames(s[1..], f, g);
      var head := if s[0].frame != f then [s[0]] else [];
      AtFrameAppend(head, WithoutFrame(s[1..], f), f);
      AtFrameAppend(head, WithoutFrame(s[1..], f), g);
    }
  }

  lemma {:induction false} AtFrameAppend(s: seq<Annotation>, t: seq<Annotation>, f: int)
    ensures AtFrame(s + t, f) == AtFrame(s, f) + AtFrame(t, f)
  {
    if s != [] {
      assert (s + t)[1..] == s[1..] + t;
      AtFrameAppend(s[1..], t, f);
    } else {
      assert s + t == t;
    }
  }

  lemma {:induction false} WithoutFrameAppend(s: seq<Annotation>, t: seq<Annotation>, f: int)
    ensures WithoutFrame(s + t, f) == WithoutFrame(s, f) + WithoutFrame(t, f)
  {
    if s != [] {
      assert (s + t)[1..] == s[1..] + t;
      WithoutFrameAppend(s[1..], t, f);
    } else {
      assert s + t == t;
    }
  }

  /** Deleting a frame on which the store has no record changes nothing. */
  lemma {:induction false} WithoutAbsentFrame(s: seq<Annotation>, f: int)
    requires AtFrame(s, f) == []
    ensures WithoutFrame(s, f) == s
  {
    if s != [] {
      WithoutAbsentFrame(s[1..], f);
      assert s == [s[0]] + s[1..];
    }
  }

  /**
   * Adding a record and then deleting its frame gives what deleting that frame
   * from the old store gives; it gives back the old store exactly when the old
   * store had nothing on that frame. Records that merely share the frame are
   * lost with it.
   */
  lemma AddThenDelete(s: seq<Annotation>, a: Annotation)
    ensures WithoutFrame(s + [a], a.frame) == WithoutFrame(s, a.frame)
    ensures WithoutFrame(s + [a], a.frame) == s <==> AtFrame(s, a.frame) == []
  {
    WithoutFrameAppend(s, [a], a.frame);
    assert WithoutFrame([a], a.frame) == [];
    WithoutFrameSplits(s, a.frame);
    if AtFrame(s, a.frame) == [] {
      WithoutAbsentFrame(s, a.frame);
    }
  }

  /**
   * The first record in store order on frame `frame`, as the edit command
   * searches for it; None when the store has no record on that frame.
   */
  method FindFirstAtFrame(s: seq<Annotation>, frame: int) returns (r: Option<nat>)
    ensures r.Some? ==> r.value < |s| && s[r.value].frame == frame
    ensures r.Some? ==> forall j :: 0 <= j < r.value ==> s[j].frame != frame
    ensures r.None? ==> forall j :: 0 <= j < |s| ==> s[j].frame != frame
  {
    var i := 0;
    while i < |s|
      invariant 0 <= i <= |s|
      invariant forall j :: 0 <= j < i ==> s[j].frame != frame
    {
      if s[i].frame == frame {
        return Some(i);
      }
      i := i + 1;
    }
    return None;
  }

  /** Ascending by frame number. */
  predicate SortedByFrame(s: seq<Annotation>) {
    forall i, j :: 0 <= i < j < |s| ==> s[i].frame <= s[j].frame
  }

  /** Inserts `x` before the first record of `t` with a greater frame; `x` goes ahead of records with its own frame. */
  function InsertByFrame(x: Annotation, t: seq<Annotation>): (r: seq<Annotation>)
    ensures |r| == |t| + 1
    ensures multiset(r) == multiset(t) + multiset{x}
  {
    if t == [] then [x]
    else if x.frame <= t[0].frame then [x] + t
    else
      assert t == [t[0]] + t[1..];
      [t[0]] + InsertByFrame(x, t[1..])
  }

  /** The store sorted by frame number, stably (Python's `sorted(annotations, key=frame_number)`). */
  function SortByFrame(s: seq<Annotation>): (r: seq<Annotation>)
    ensures |r| == |s|
  {
    if s == [] then [] else InsertByFrame(s[0], SortByFrame(s[1..]))
  }

  lemma SortedCons(h: Annotation, t: seq<Annotation>)
    requires SortedByFrame(t)
    requires forall y :: y in t ==> h.frame <= y.frame
    ensures SortedByFrame([h] + t)
  {
    var r := [h] + t;
    forall i, j | 0 <= i < j < |r| ensures r[i].frame <= r[j].frame {
      assert r[j] == t[j - 1];
      if i > 0 { assert r[i] == t[i - 1]; }
    }
  }

  lemma {:induction false} InsertSorted(x: Annotation, t: seq<Annotation>)
    requires SortedByFrame(t)
    ensures SortedByFrame(InsertByFrame(x, t))
  {
    if t == [] {
    } else if x.frame <= t[0].frame {
      forall y | y in t ensures x.frame <= y.frame {
        var k :| 0 <= k < |t| && t[k] == y;
      }
      SortedCons(x, t);
    } else {
      var rest := InsertByFrame(x, t[1..]);
      InsertSorted(x, t[1..]);
      forall y | y in rest ensures t[0].frame <= y.frame {
        assert y in multiset(rest);
        if y != x {
          assert y in multiset(t[1..]);
          var k :| 0 <= k < |t[1..]| && t[1..][k] == y;
          assert t[k + 1] == y;
        }
      }
      assert SortedByFrame(t[1..]) by {
        forall i, j | 0 <= i < j < |t[1..]| ensures t[1..][i].frame <= t[1..][j].frame {
          assert t[1..][i] == t[i + 1] && t[1..][j] == t[j + 1];
        }
      }
      SortedCons(t[0], rest);
    }
  }

  /** The projection is ascending by frame number. */
  lemma {:induction false} SortByFrameSorted(s: seq<Annotation>)
    ensures SortedByFrame(SortByFrame(s))
  {
    if s != [] {
      SortByFrameSorted(s[1..]);
      InsertSorted(s[0], SortByFrame(s[1..]));
    }
  }

  /** The projection is a permutation of the store: the same records, each as often. */
  lemma {:induction false} SortByFramePermutes(s: seq<Annotation>)
    ensures multiset(SortByFrame(s)) == multiset(s)
  {
    if s != [] {
      SortByFramePermutes(s[1..]);
      assert s == [s[0]] + s[1..];
    }
  }

  lemma {:induction false} InsertAtFrame(x: Annotation, t: seq<Annotation>, f: int)
    ensures AtFrame(InsertByFrame(x, t), f) == (if x.frame == f then [x] else []) + AtFrame(t, f)
  {
    if t == [] {
      assert [x][1..] == [];
    } else if x.frame <= t[0].frame {
      assert ([x] + t)[1..] == t;
      assert AtFrame([x] + t, f) == (if x.frame == f then [x] else []) + AtFrame(t, f);
    } else {
      var rest := InsertByFrame(x, t[1..]);
      InsertAtFrame(x, t[1..], f);
      assert ([t[0]] + rest)[1..] == rest;
      var head := if t[0].frame == f then [t[0]] else [];
      assert AtFrame([t[0]] + rest, f) == head + AtFrame(rest, f);
      assert AtFrame(t, f) == head + AtFrame(t[1..], f);
      assert x.frame != f || t[0].frame != f;
    }
  }

  /**
   * The projection is stable: for every frame, the records on that frame appear
   * in the projection in exactly their store order.
   */
  lemma {:induction false} SortByFrameStable(s: seq<Annotation>, f: int)
    ensures AtFrame(SortByFrame(s), f) == AtFrame(s, f)
  {
    if s != [] {
      SortByFrameStable(s[1..], f);
      InsertAtFrame(s[0], SortByFrame(s[1..]), f);
    }
  }

  /** A store already in frame order is its own projection, so projecting twice is projecting once. */
  lemma {:induction false} SortOfSorted(s: seq<Annotation>)
    requires SortedByFrame(s)
    ensures SortByFrame(s) == s
  {
    if s != [] {
      SortOfSorted(s[1..]);
      if |s| > 1 {
        assert s[0].frame <= s[1].frame;
        assert [s[0]] + s[1..] == s;
      }
    }
  }

  /** Every record of the projection comes from the store, so the projection of a valid store is valid. */
  lemma SortedStoreValid(s: seq<Annotation>, lastFrame: int)
    requires StoreValid(s, lastFrame)
    ensures StoreValid(SortByFrame(s), lastFrame)
  {
    SortByFramePermutes(s);
    forall a | a in SortByFrame(s) ensures WellFormed(a, lastFrame) {
      assert a in multiset(SortByFrame(s));
    }
  }

  /** One row of the annotation list: Frame, Time, Category and the shortened Annotation text. */
  datatype ListRow = ListRow(frame: int, time: real, category: string, shortText: string)

  /** The annotation list, one row per record of the sorted projection. */
  function ListRows(s: seq<Annotation>): (r: seq<ListRow>)
    ensures |r| == |s|
  {
    var t := SortByFrame(s);
    seq(|t|, i requires 0 <= i < |t| =>
      ListRow(t[i].frame, t[i].time, t[i].category, Text.ShortLabel(t[i].text)))
  }

  /**
   * Every row of the annotation list shows the frame of a stored record, so a
   * search of the store for the frame of a selected row always finds one.
   */
  lemma ListedFrameStored(s: seq<Annotation>, i: nat)
    requires i < |s|
    ensures exists j :: 0 <= j < |s| && s[j].frame == ListRows(s)[i].frame
  {
    SortByFramePermutes(s);
    var a := SortByFrame(s)[i];
    assert a in multiset(SortByFrame(s));
    assert a in s;
  }

  /** The header of an exported file, and the columns an imported file is checked against. */
  const Columns: seq<string> := ["Frame Number", "Time Instant (s)", "Annotation", "Comment", "Category"]

  /** One exported row; its fields are the `Columns`, in that order. */
  datatype CsvRow = CsvRow(frameNumber: int, timeInstant: real, annotation: string, comment: string, category: string)

  function ToCsvRow(a: Annotation): CsvRow {
    CsvRow(a.frame, a.time, a.text, a.comment, a.category)
  }

  function CsvRows(s: seq<Annotation>): (r: seq<CsvRow>)
    ensures |r| == |s|
  {
    if s == [] then [] else [ToCsvRow(s[0])] + CsvRows(s[1..])
  }

  /** The exported rows: the sorted projection, one row per record. */
  function ExportRows(s: seq<Annotation>): (r: seq<CsvRow>)
    ensures |r| == |s|
  {
    CsvRows(SortByFrame(s))
  }

  lemma {:induction false} CsvRowsCons(a: Annotation, s: seq<Annotation>)
    ensures CsvRows([a] + s) == [ToCsvRow(a)] + CsvRows(s)
  {
    assert ([a] + s)[1..] == s;
  }

  lemma {:induction false} CsvRowsInsert(x: Annotation, t: seq<Annotation>)
    ensures multiset(CsvRows(InsertByFrame(x, t))) == multiset(CsvRows(t)) + multiset{ToCsvRow(x)}
  {
    if t == [] {
      CsvRowsCons(x, []);
    } else if x.frame <= t[0].frame {
      CsvRowsCons(x, t);
    } else {
      CsvRowsInsert(x, t[1..]);
      CsvRowsInsertBehind(x, t);
    }
  }

  /** The inductive step of `CsvRowsInsert`: `x` is inserted behind the first record of `t`. */
  lemma {:induction false} CsvRowsInsertBehind(x: Annotation, t: seq<Annotation>)
    requires t != [] && x.frame > t[0].frame
    requires multiset(CsvRows(InsertByFrame(x, t[1..]))) == multiset(CsvRows(t[1..])) + multiset{ToCsvRow(x)}
    ensures multiset(CsvRows(InsertByFrame(x, t))) == multiset(CsvRows(t)) + multiset{ToCsvRow(x)}
  {
    assert InsertByFrame(x, t) == [t[0]] + InsertByFrame(x, t[1..]);
    CsvRowsConsCount(t[0], InsertByFrame(x, t[1..]));
    CsvRowsConsCount(t[0], t[1..]);
    assert [t[0]] + t[1..] == t;
  }

  lemma {:induction false} CsvRowsConsCount(a: Annotation, s: seq<Annotation>)
    ensures multiset(CsvRows([a] + s)) == multiset{ToCsvRow(a)} + multiset(CsvRows(s))
  {
    CsvRowsCons(a, s);
  }

  /**
   * The export holds one row per record, ascending by frame number, and its
   * rows are exactly the rows of the store's records, each as often.
   */
  lemma {:induction false} ExportRowsSortedPermutation(s: seq<Annotation>)
    ensures |ExportRows(s)| == |s|
    ensures forall i, j :: 0 <= i < j < |s| ==> ExportRows(s)[i].frameNumber <= ExportRows(s)[j].frameNumber
    ensures multiset(ExportRows(s)) == multiset(CsvRows(s))
  {
    SortByFrameSorted(s);
    var t := SortByFrame(s);
    forall k | 0 <= k < |t| ensures CsvRows(t)[k] == ToCsvRow(t[k]) {
      CsvRowsAt(t, k);
    }
    ExportRowsPermutation(s);
  }

  lemma {:induction false} CsvRowsAt(s: seq<Annotation>, k: nat)
    requires k < |s|
    ensures CsvRows(s)[k] == ToCsvRow(s[k])
  {
    if k > 0 {
      CsvRowsAt(s[1..], k - 1);
    }
  }

  lemma {:induction false} ExportRowsPermutation(s: seq<Annotation>)
    ensures multiset(ExportRows(s)) == multiset(CsvRows(s))
  {
    if s != [] {
      ExportRowsPermutation(s[1..]);
      CsvRowsInsert(s[0], SortByFrame(s[1..]));
    }
  }
}

=== FILE: categories.dfy ===
/** The fixed set of annotation categories and the display colour of each. */
module Categories {
  import opened Wrappers

  /** Category name to colour, in the order the category chooser lists them. */
  const Colors: map<string, string> := map[
    "Event" := "#FF6B6B",
    "Action" := "#4ECDC4",
    "Object" := "#45B7D1",
    "Scene" := "#96CEB4",
    "Person" := "#FFEAA7",
    "Other" := "#DDA0DD"
  ]

  /** The category an unknown or empty cell falls back to. */
  const Fallback: string := "Other"

  /**
   * The category an imported Category cell yields: a known name is kept; an
   * empty cell or an unknown name becomes "Other". The result is always a key of
   * `Colors`, so the record's colour can be looked up.
   */
  function Coerce(cell: Option<string>): (c: string)
    ensures c in Colors
    ensures cell.Some? && cell.value in Colors ==> c == cell.value
    ensures cell.None? || cell.value !in Colors ==> c == Fallback
  {
    var name := cell.GetOr(Fallback);
    if name in Colors then name else Fallback
  }
}

=== FILE: import.dfy ===
/**
 * Loading annotations from a CSV table: the header check and the row loop that
 * turns each row into a record or skips it and counts it.
 *
 * A row arrives already split into cells. `Coerced` holds a row whose Frame
 * Number converted to an integer and whose Time Instant converted to a number;
 * a text cell that is empty is `None`. `Uncoercible` is a row on which one of
 * those two conversions fails.
 */
module Import {
  import opened Wrappers
  import Categories
  import opened Annotations

  datatype Row =
    | Coerced(frame: int, time: real, text: Option<string>, comment: Option<string>, category: Option<string>)
    | Uncoercible

  /** The read file: its header and its rows. */
  datatype Table = Table(columns: seq<string>, rows: seq<Row>)

  /**
   * The header columns that are not one of the five known columns, in header
   * order. The import is refused when there is any. A known column that is
   * absent is not reported.
   */
  function UnknownColumns(columns: seq<string>): (r: seq<string>)
    ensures |r| <= |columns|
    ensures forall c :: c in r ==> c in columns && c !in Columns
    ensures forall c :: c in columns && c !in Columns ==> c in r
  {
    if columns == [] then []
    else (if columns[0] in Columns then [] else [columns[0]]) + UnknownColumns(columns[1..])
  }

  /** The header check passes exactly when every header column is one of the five known columns. */
  lemma {:induction false} HeaderAcceptedIff(columns: seq<string>)
    ensures UnknownColumns(columns) == [] <==> forall i :: 0 <= i < |columns| ==> columns[i] in Columns
  {
    if columns != [] {
      HeaderAcceptedIff(columns[1..]);
      assert forall i :: 1 <= i < |columns| ==> columns[i] == columns[1..][i - 1];
    }
  }

  /** Every one of the five columns is in the header; otherwise reading a row's cells fails. */
  predicate HasAllColumns(columns: seq<string>) {
    forall c :: c in Columns ==> c in columns
  }

  /** Whether the row loop keeps a row: the cells can be read, they convert, and the frame lies in [0, totalFrames). */
  predicate Keeps(columns: seq<string>, row: Row, totalFrames: int) {
    HasAllColumns(columns) && row.Coerced? && 0 <= row.frame < totalFrames
  }

  /** The record a kept row becomes, with id `id`: empty text cells read as "", the category coerced into the fixed set. */
  function Record(row: Row, id: int): (a: Annotation)
    requires row.Coerced?
    ensures a.id == id && a.frame == row.frame && a.time == row.time
    ensures a.category in Categories.Colors && a.color == Categories.Colors[a.category]
    ensures row.category.Some? && row.category.value in Categories.Colors ==> a.category == row.category.value
  {
    var category := Categories.Coerce(row.category);
    Annotation(id, row.frame, row.time, row.text.GetOr(""), row.comment.GetOr(""),
               category, Categories.Colors[category])
  }

  /** The store the row loop builds from `rows`, each kept row appended with the store length as its id. */
  function Imported(columns: seq<string>, rows: seq<Row>, totalFrames: int): (r: seq<Annotation>)
    ensures |r| <= |rows|
  {
    if rows == [] then []
    else
      var before := Imported(columns, rows[..|rows| - 1], totalFrames);
      var row := rows[|rows| - 1];
      if Keeps(columns, row, totalFrames) then before + [Record(row, |before|)] else before
  }

  /** The number of rows of `rows` the loop keeps. */
  function CountKept(columns: seq<string>, rows: seq<Row>, totalFrames: int): nat {
    if rows == [] then 0
    else (if Keeps(columns, rows[0], totalFrames) then 1 else 0) + CountKept(columns, rows[1..], totalFrames)
  }

  lemma {:induction false} CountKeptSnoc(columns: seq<string>, rows: seq<Row>, row: Row, totalFrames: int)
    ensures CountKept(columns, rows + [row], totalFrames)
         == CountKept(columns, rows, totalFrames) + (if Keeps(columns, row, totalFrames) then 1 else 0)
  {
    if rows != [] {
      assert (rows + [row])[1..] == rows[1..] + [row];
      CountKeptSnoc(columns, rows[1..], row, totalFrames);
    }
  }

  /** One record is loaded per kept row, so the loaded and skipped counts add up to the number of rows. */
  lemma {:induction false} ImportedCount(columns: seq<string>, rows: seq<Row>, totalFrames: int)
    ensures |Imported(columns, rows, totalFrames)| == CountKept(columns, rows, totalFrames)
  {
    if rows != [] {
      var init := rows[..|rows| - 1];
      ImportedCount(columns, init, totalFrames);
      CountKeptSnoc(columns, init, rows[|rows| - 1], totalFrames);
      assert init + [rows[|rows| - 1]] == rows;
    }
  }

  /**
   * Every loaded record has a frame in [0, totalFrames), a category of the fixed
   * set with its colour, and its position in the store as its id: ids run from 0
   * to the loaded count minus one.
   */
  lemma {:induction false} ImportedWellFormed(columns: seq<string>, rows: seq<Row>, totalFrames: int)
    ensures forall i :: 0 <= i < |Imported(columns, rows, totalFrames)| ==>
      var a := Imported(columns, rows, totalFrames)[i];
      a.id == i && 0 <= a.frame < totalFrames &&
      a.category in Categories.Colors && a.color == Categories.Colors[a.category]
  {
    if rows != [] {
      ImportedWellFormed(columns, rows[..|rows| - 1], totalFrames);
    }
  }

  /**
   * A header that lacks one of the five columns passes the header check when its
   * other columns are known ones, yet no row is loaded: every row is skipped.
   */
  lemma {:induction false} MissingColumnLoadsNothing(columns: seq<string>, rows: seq<Row>, totalFrames: int)
    requires !HasAllColumns(columns)
    ensures Imported(columns, rows, totalFrames) == []
  {
    if rows != [] {
      MissingColumnLoadsNothing(columns, rows[..|rows| - 1], totalFrames);
    }
  }

  /**
   * Appending a row whose frame is outside [0, totalFrames) leaves the loaded
   * store as it was; appending a kept row whose category is unknown loads it as
   * "Other".
   */
  lemma OutOfRangeRowSkipped(columns: seq<string>, rows: seq<Row>, row: Row, totalFrames: int)
    requires row.Coerced? && (row.frame < 0 || row.frame >= totalFrames)
    ensures Imported(columns, rows + [row], totalFrames) == Imported(columns, rows, totalFrames)
  {
    assert (rows + [row])[..|rows|] == rows;
  }

  lemma UnknownCategoryLoadsAsOther(columns: seq<string>, rows: seq<Row>, row: Row, totalFrames: int)
    requires Keeps(columns, row, totalFrames) && row.category.Some? && row.category.value !in Categories.Colors
    ensures var r := Imported(columns, rows + [row], totalFrames);
      |r| == |Imported(columns, rows, totalFrames)| + 1 && r[|r| - 1].category == "Other"
  {
    assert (rows + [row])[..|rows|] == rows;
  }

  /**
   * The row loop of the import: walks the rows in order, appends a record for
   * each kept row and counts the rest as skipped.
   */
  method ImportRows(columns: seq<string>, rows: seq<Row>, totalFrames: int)
    returns (records: seq<Annotation>, loaded: nat, skipped: nat)
    ensures records == Imported(columns, rows, totalFrames)
    ensures loaded == |records| && loaded + skipped == |rows|
    ensures forall i :: 0 <= i < |records| ==>
      records[i].id == i && 0 <= records[i].frame < totalFrames &&
      records[i].category in Categories.Colors && records[i].color == Categories.Colors[records[i].category]
  {
    records, loaded, skipped := [], 0, 0;
    var i := 0;
    while i < |rows|
      invariant 0 <= i <= |rows|
      invariant records == Imported(columns, rows[..i], totalFrames)
      invariant loaded == |records| && loaded + skipped == i
    {
      assert rows[..i + 1][..i] == rows[..i];
      var row := rows[i];
      i := i + 1;
      if !HasAllColumns(columns) || row.Uncoercible? {
        // reading a missing column or converting a cell failed
        skipped := skipped + 1;
        continue;
      }
      if row.frame < 0 || row.frame >= totalFrames {
        skipped := skipped + 1;
        continue;
      }
      var category := Categories.Coerce(row.category);
      records := records + [Annotation(|records|, row.frame, row.time, row.text.GetOr(""),
                                       row.comment.GetOr(""), category, Categories.Colors[category])];
      loaded := loaded + 1;
    }
    assert rows[..i] == rows;
    ImportedWellFormed(columns, rows, totalFrames);
  }
}

=== FILE: playback.dfy ===
/**
 * The arithmetic of the frame cursor: the range a frame index may take, one tick
 * of the playback loop, and the frame a click on the timeline selects.
 */
module Playback {

  /** The largest frame the cursor can show: `total_frames - 1`, or 0 for a video with no frames. */
  function LastFrame(totalFrames: int): (r: int)
    ensures r >= 0
    ensures totalFrames >= 1 ==> r == totalFrames - 1
  {
    if totalFrames > 0 then totalFrames - 1 else 0
  }

  /** The time of frame `frame` at `fps` frames per second, in seconds. */
  function Seconds(frame: int, fps: int): (r: real)
    requires fps > 0
    ensures r * fps as real == frame as real
    ensures frame >= 0 ==> r >= 0.0
  {
    frame as real / fps as real
  }

  /** The playback timer delay between two frames at `fps` frames per second, in whole milliseconds. */
  function FrameDelay(fps: int): (r: int)
    requires fps > 0
    ensures 0 <= r && r * fps <= 1000 < (r + 1) * fps
  {
    FloorDivBounds(1000, fps);
    1000 / fps
  }

  /** The playback part of the cursor: the current frame and whether playback is running. */
  datatype Playhead = Playhead(frame: int, playing: bool)

  /**
   * One tick of the playback loop: while playing and before the last frame,
   * advance one frame and keep playing; otherwise stop where the cursor is.
   */
  function Tick(p: Playhead, totalFrames: int): (r: Playhead)
    ensures p.frame <= r.frame <= p.frame + 1
    ensures r.frame != p.frame ==> p.playing && r.playing && r.frame <= totalFrames - 1
    ensures r.playing ==> p.playing
  {
    if p.playing && p.frame < totalFrames - 1 then Playhead(p.frame + 1, true)
    else Playhead(p.frame, false)
  }

  /** `n` ticks of the playback loop. */
  function Ticks(p: Playhead, totalFrames: int, n: nat): (r: Playhead)
    ensures p.frame <= r.frame <= p.frame + n
    ensures r.playing ==> p.playing
    decreases n
  {
    if n == 0 then p else Ticks(Tick(p, totalFrames), totalFrames, n - 1)
  }

  function Min(a: int, b: int): int { if a <= b then a else b }

  function Max(a: int, b: int): int { if a >= b then a else b }

  /** Once stopped, playback stays stopped and the cursor stays put, however many ticks follow. */
  lemma {:induction false} StoppedStaysPut(p: Playhead, totalFrames: int, n: nat)
    requires !p.playing
    ensures Ticks(p, totalFrames, n) == p
    decreases n
  {
    if n > 0 {
      StoppedStaysPut(Tick(p, totalFrames), totalFrames, n - 1);
    }
  }

  /**
   * Playback started on a frame of the video advances one frame per tick up to
   * the last frame and then stops there: it never passes the last frame and
   * never wraps around.
   */
  lemma {:induction false} PlaybackRunsToLastFrame(p: Playhead, totalFrames: int, n: nat)
    requires p.playing && 0 <= p.frame <= totalFrames - 1
    ensures Ticks(p, totalFrames, n).frame == Min(p.frame + n, totalFrames - 1)
    ensures Ticks(p, totalFrames, n).playing <==> p.frame + n <= totalFrames - 1
    decreases n
  {
    if n > 0 {
      var q := Tick(p, totalFrames);
      if p.frame < totalFrames - 1 {
        PlaybackRunsToLastFrame(q, totalFrames, n - 1);
      } else {
        StoppedStaysPut(q, totalFrames, n - 1);
      }
    }
  }

  /** Ticks keep a cursor inside [0, LastFrame] and never move it backwards. */
  lemma {:induction false} TicksStayInRange(p: Playhead, totalFrames: int, n: nat)
    requires 0 <= p.frame <= LastFrame(totalFrames)
    ensures p.frame <= Ticks(p, totalFrames, n).frame <= LastFrame(totalFrames)
    decreases n
  {
    if n > 0 {
      TicksStayInRange(Tick(p, totalFrames), totalFrames, n - 1);
    }
  }

  /** Python's `int(n / d)` for a positive `d`: the quotient rounded toward zero. */
  function TruncDiv(n: int, d: int): (q: int)
    requires d > 0
    ensures n >= 0 ==> 0 <= q && q * d <= n < (q + 1) * d
    ensures n < 0 ==> q <= 0 && (q - 1) * d < n <= q * d
  {
    if n >= 0 then
      FloorDivBounds(n, d);
      n / d
    else
      FloorDivBounds(-n, d);
      var m := (-n) / d;
      assert (-m) * d == -(m * d) && (-m - 1) * d == -((m + 1) * d);
      -m
  }

  /** Euclidean division of a natural number brackets it between two consecutive multiples of the divisor. */
  lemma FloorDivBounds(n: nat, d: int)
    requires d > 0
    ensures 0 <= n / d && (n / d) * d <= n < (n / d + 1) * d
  {
    var q, r := n / d, n % d;
    assert n == d * q + r && 0 <= r < d;
    assert (q + 1) * d == q * d + d;
  }

  /**
   * The frame selected by a click at pixel `x` of a timeline `width` pixels wide:
   * the truncated `x / width * totalFrames`, clamped into [0, totalFrames - 1].
   * It is always a frame the cursor can show.
   */
  function ClickTarget(x: int, width: int, totalFrames: int): (r: int)
    requires width > 0 && totalFrames >= 0
    ensures 0 <= r <= LastFrame(totalFrames)
  {
    Max(0, Min(TruncDiv(x * totalFrames, width), totalFrames - 1))
  }

  /**
   * A click inside the timeline selects the frame whose slot contains the click:
   * the timeline draws frame `r` at `r / totalFrames * width`, and the selected `r`
   * satisfies `r * width <= x * totalFrames < (r + 1) * width`, so the clamp never
   * changes the truncated value there.
   */
  lemma ClickHitsFrameSlot(x: int, width: int, totalFrames: int)
    requires 0 <= x < width && totalFrames >= 1
    ensures var r := ClickTarget(x, width, totalFrames);
      r == TruncDiv(x * totalFrames, width) &&
      r * width <= x * totalFrames < (r + 1) * width
  {
    var n, q := x * totalFrames, TruncDiv(x * totalFrames, width);
    assert 0 <= n < width * totalFrames by {
      assert (width - x) * totalFrames > 0;
    }
    assert q <= totalFrames - 1 by {
      assert (totalFrames - q) * width > 0;
    }
  }
}

=== FILE: scenarios.dfy ===
/**
 * Calls of the annotation tool's commands in sequence, whose outcomes are
 * proved from the commands' contracts alone.
 */
module Scenarios {
  import opened Wrappers
  import opened Annotations
  import opened Import
  import opened Tool
  import Categories
  import Text

  /**
   * On a 300-frame video at 30 frames per second, an annotation added on frame
   * 90 is stored with time 3.0 and exported as the row 90, 3.0, "Door opens", "", Event.
   */
  method DoorOpens() {
    var tool := new AnnotationTool();
    tool.LoadVideo(300, 30);
    tool.OnTimelineChange(90.0);
    assert tool.currentFrame == 90 && tool.currentTime == 3.0;
    var text := "Door opens";
    assert !Text.Blank(text) by { assert !Text.IsSpace(text[0]); }
    assert Text.Strip(text) == text by { Text.StripUnpadded(text); }
    assert Text.Strip("\n") == "" by { assert Text.Blank("\n"); }
    var added := tool.AddAnnotation(text, "\n", "Event");
    assert added == Added;
    var a := Annotation(0, 90, 3.0, text, "", "Event", "#FF6B6B");
    assert tool.annotations == [a];
    var notice, rows := tool.ExportCsv(true);
    assert SortByFrame([a]) == [a];
    assert CsvRows([a]) == [ToCsvRow(a)] by { assert [a][1..] == []; }
    assert rows == Some([CsvRow(90, 3.0, text, "", "Event")]);
  }

  /** Moving to the last frame and stepping forward keeps the cursor there; starting playback there stops at once. */
  method StepPastLastFrame() {
    var tool := new AnnotationTool();
    tool.LoadVideo(300, 30);
    tool.OnTimelineChange(299.0);
    tool.NextFrame();
    assert tool.currentFrame == 299;
    tool.TogglePlayback();
    assert tool.currentFrame == 299 && !tool.isPlaying;
  }

  /** A click at x = 250 on a 500-pixel timeline of a 300-frame video selects frame 150; the same click again changes nothing. */
  method ClickTwice() {
    var tool := new AnnotationTool();
    tool.LoadVideo(300, 30);
    tool.OnTimelineClick(250, 500);
    assert tool.currentFrame == 150 && !tool.isPlaying;
    var frame, time := tool.currentFrame, tool.currentTime;
    tool.OnTimelineClick(250, 500);
    assert tool.currentFrame == frame && tool.currentTime == time && !tool.isPlaying;
  }

  /** In a store of two records on frames 0 and 1, the list shows them in store order, and deleting that frame leaves the second record. */
  lemma DeleteFirstOfTwo(s: seq<Annotation>)
    requires |s| == 2 && s[0].frame == 0 && s[1].frame == 1
    ensures SortByFrame(s) == s && WithoutFrame(s, 0) == [s[1]]
  {
    SortOfSorted(s);
    assert WithoutFrame(s[1..], 0) == [s[1]] by { assert s[1..][1..] == []; }
  }

  /** A 10-frame video with one record on frame 0 (id 0) and one on frame 1 (id 1). */
  method TwoRecords(first: string, second: string, category: string) returns (tool: AnnotationTool)
    requires !Text.Blank(first) && !Text.Blank(second)
    requires category in Categories.Colors
    ensures fresh(tool) && tool.Valid() && tool.hasVideo && tool.currentFrame == 1
    ensures |tool.annotations| == 2 && tool.annotations[0].frame == 0 && tool.annotations[1].frame == 1
    ensures tool.annotations[0].id == 0 && tool.annotations[1].id == 1
  {
    tool := new AnnotationTool();
    tool.LoadVideo(10, 25);
    var n := tool.AddAnnotation(first, "", category);
    tool.NextFrame();
    n := tool.AddAnnotation(second, "", category);
  }

  /**
   * Ids come from the store length, so they repeat after a deletion: add on
   * frames 0 and 1 (ids 0 and 1), delete frame 0, add again: both records have id 1.
   */
  method IdsRepeatAfterDelete(first: string, second: string, third: string, category: string)
    requires !Text.Blank(first) && !Text.Blank(second) && !Text.Blank(third)
    requires category in Categories.Colors
  {
    var tool := TwoRecords(first, second, category);
    var s := tool.annotations;
    DeleteFirstOfTwo(s);
    var n := tool.DeleteAnnotation(Some(0), true);
    assert tool.annotations == [s[1]];
    n := tool.AddAnnotation(third, "", category);
    assert tool.annotations[0].id == 1 && tool.annotations[1].id == 1;
  }

  /** The rows of the import run below: one outside the video, one with an unknown category, one that does not convert. */
  function MixedRows(unknownName: string): seq<Row> {
    [Coerced(300, 10.0, Some("late"), None, Some("Event")),
     Coerced(12, 0.4, Some("wave"), None, Some(unknownName)),
     Uncoercible]
  }

  /** Of the three mixed rows only the second is loaded, as an "Other" record. */
  lemma MixedRowsLoadOne(columns: seq<string>, unknownName: string)
    requires HasAllColumns(columns) && unknownName !in Categories.Colors
    ensures var r := Imported(columns, MixedRows(unknownName), 300);
      |MixedRows(unknownName)| == 3 && |r| == 1 && r[0].category == "Other" && r[0].frame == 12
  {
    var rows := MixedRows(unknownName);
    assert Imported(columns, rows[..1], 300) == [] by {
      OutOfRangeRowSkipped(columns, [], rows[0], 300);
      assert [] + [rows[0]] == rows[..1];
    }
    UnknownCategoryLoadsAsOther(columns, rows[..1], rows[1], 300);
    assert rows[..1] + [rows[1]] == rows[..2] && rows[..2] + [rows[2]] == rows;
    assert Imported(columns, rows, 300) == Imported(columns, rows[..2], 300);
  }

  /**
   * Importing, into a 300-frame video, a file whose header holds the five
   * columns in any order: a row on frame 300 is skipped, a row with an unknown
   * category is loaded as "Other", a row that does not convert is skipped.
   */
  method ImportMixedRows(columns: seq<string>, unknownName: string)
    requires HasAllColumns(columns) && forall i :: 0 <= i < |columns| ==> columns[i] in Columns
    requires unknownName !in Categories.Colors
  {
    var tool := new AnnotationTool();
    tool.LoadVideo(300, 30);
    var rows := MixedRows(unknownName);
    MixedRowsLoadOne(columns, unknownName);
    HeaderAcceptedIff(columns);
    var notice := tool.LoadAnnotations(Read(Table(columns, rows)), false);
    assert notice == Loaded(1, 2);
    assert tool.annotations[0].category == "Other" && tool.annotations[0].frame == 12;
  }
}

=== FILE: text.dfy ===
/**
 * The string operations the annotation tool applies to user input: Python's
 * `str.strip()` with no argument, and the 30-character label shortening of the
 * annotation list.
 */
module Text {

  /** The characters for which Python's `str.isspace()` holds, i.e. those `strip()` removes. */
  predicate IsSpace(c: char) {
    ('\t' <= c <= '\r') || ('\U{1C}' <= c <= ' ') || c == '\U{85}' || c == '\U{A0}' || c == '\U{1680}'
    || ('\U{2000}' <= c <= '\U{200A}') || c == '\U{2028}' || c == '\U{2029}' || c == '\U{202F}'
    || c == '\U{205F}' || c == '\U{3000}'
  }

  /** Every character of `s` is whitespace (so is the empty string). */
  predicate Blank(s: string) {
    forall i :: 0 <= i < |s| ==> IsSpace(s[i])
  }

  /** The index of the first character of `s` that is not whitespace, or `|s|` when there is none. */
  function TextStart(s: string): (k: nat)
    ensures k <= |s| && (k == |s| || !IsSpace(s[k]))
    ensures forall i :: 0 <= i < k ==> IsSpace(s[i])
  {
    if s == [] || !IsSpace(s[0]) then 0 else 1 + TextStart(s[1..])
  }

  /** One past the index of the last character of `s` that is not whitespace, or 0 when there is none. */
  function TextEnd(s: string): (k: nat)
    ensures k <= |s| && (k == 0 || !IsSpace(s[k - 1]))
    ensures forall i :: k <= i < |s| ==> IsSpace(s[i])
  {
    if s == [] || !IsSpace(s[|s| - 1]) then |s| else TextEnd(s[..|s| - 1])
  }

  /**
   * Python's `s.strip()`: the longest infix of `s` that neither starts nor ends
   * with whitespace, bordered in `s` by whitespace only. It is empty exactly when
   * `s` is blank.
   */
  function Strip(s: string): (r: string)
    ensures |r| <= |s|
    ensures r == [] || (!IsSpace(r[0]) && !IsSpace(r[|r| - 1]))
    ensures r == [] <==> Blank(s)
  {
    var start, end := TextStart(s), TextEnd(s);
    if end <= start then [] else s[start..end]
  }

  /** What `Strip` removes is whitespace only: `s` is blank text, then the result, then blank text. */
  lemma StripRemovesOnlyWhitespace(s: string)
    ensures var k := TextStart(s); var r := Strip(s);
      k + |r| <= |s| && s[k..k + |r|] == r && Blank(s[..k]) && Blank(s[k + |r|..])
  {
  }

  /** Stripping a string that has no surrounding whitespace leaves it as it is; in particular `Strip` is idempotent. */
  lemma StripUnpadded(s: string)
    requires s == [] || (!IsSpace(s[0]) && !IsSpace(s[|s| - 1]))
    ensures Strip(s) == s
  {
  }

  lemma StripIdempotent(s: string)
    ensures Strip(Strip(s)) == Strip(s)
  {
    StripUnpadded(Strip(s));
  }

  /** The Annotation column of the list view: the first 30 characters, followed by "..." when the text is longer. */
  function ShortLabel(text: string): (r: string)
    ensures |text| <= 30 ==> r == text
    ensures |text| > 30 ==> |r| == 33 && r[..30] == text[..30] && r[30..] == "..."
  {
    if |text| > 30 then text[..30] + "..." else text
  }
}

=== FILE: tool.dfy ===
/**
 * The state of the annotation tool and the commands that change it, with the
 * widgets stripped away: user confirmations, the selected row of the annotation
 * list and the values typed into the fields arrive as parameters. A command's
 * outcome comes back as a `Notice`: the message box it shows, or, for adding
 * and deleting, which show none, the change it made.
 */
module Tool {
  import opened Wrappers
  import opened Text
  import Categories
  import opened Annotations
  import opened Playback
  import Import

  /** The outcome a command reports to the user. */
  datatype Notice =
    | Silent                             // no message box: a dialog cancelled, a question declined, or nothing to report
    | NoVideo                            // "Please load a video first!"
    | EmptyText                          // "Please enter an annotation!"
    | NoSelection                        // "Please select an annotation ..."
    | NotFound                           // "Could not find annotation to edit!"
    | NothingToExport                    // "No annotations to export!"
    | ReadFailed                         // the file could not be read as a table
    | ColumnError(columns: seq<string>)  // the header check failed; lists the unknown columns
    | Added                              // no message box
    | Updated(index: nat)
    | Deleted                            // no message box
    | Exported
    | Loaded(loaded: nat, skipped: nat)

  /** What the edit dialog's Save button submits. */
  datatype Changes = Changes(category: string, text: string, comment: string)

  /** The outcome of the file dialog and the read of an annotation file. */
  datatype CsvFile = DialogCancelled | Unreadable | Read(table: Import.Table)

  class AnnotationTool {
    /** Whether a video capture has been opened (the capture object itself is not modelled). */
    var hasVideo: bool
    var totalFrames: int
    var fps: int
    /** Milliseconds between two playback ticks. */
    var frameDuration: int
    var currentFrame: int
    /** Seconds from the start of the video to the current frame. */
    var currentTime: real
    var isPlaying: bool
    /** The annotation store, in insertion order. */
    var annotations: seq<Annotation>

    ghost predicate Valid()
      reads this
    {
      totalFrames >= 0 && fps > 0 && frameDuration == FrameDelay(fps)
      && 0 <= currentFrame <= LastFrame(totalFrames)
      && currentTime == Seconds(currentFrame, fps)
      && (isPlaying ==> hasVideo)
      && (!hasVideo ==> totalFrames == 0 && annotations == [])
      && StoreValid(annotations, LastFrame(totalFrames))
    }

    /** The playback view of the cursor. */
    function Head(): Playhead
      reads this
    {
      Playhead(currentFrame, isPlaying)
    }

    constructor ()
      ensures Valid()
      ensures !hasVideo && totalFrames == 0 && fps == 30 && frameDuration == 33
      ensures currentFrame == 0 && currentTime == 0.0 && !isPlaying && annotations == []
    {
      hasVideo := false;
      totalFrames := 0;
      fps := 30;
      currentFrame := 0;
      currentTime := 0.0;
      isPlaying := false;
      frameDuration := FrameDelay(30);
      annotations := [];
    }

    /**
     * Opening a video: the frame count and frame rate reported by the decoder,
     * each already truncated to an integer (a rate of 0 means unknown and
     * becomes 30), replace the old ones, the cursor
     * goes back to frame 0, playback stops and the store is emptied.
     */
    method LoadVideo(frameCount: int, reportedFps: int)
      requires frameCount >= 0 && reportedFps >= 0
      modifies this
      ensures Valid()
      ensures hasVideo && totalFrames == frameCount && fps == (if reportedFps == 0 then 30 else reportedFps)
      ensures frameDuration == FrameDelay(fps)
      ensures currentFrame == 0 && currentTime == 0.0 && !isPlaying && annotations == []
    {
      hasVideo := true;
      totalFrames := frameCount;
      fps := if reportedFps == 0 then 30 else reportedFps;
      frameDuration := FrameDelay(fps);
      currentFrame := 0;
      currentTime := 0.0;
      isPlaying := false;
      annotations := [];
    }

    /** Recomputes the current time after the cursor moved (the display refresh that goes with it is not modelled). */
    method UpdateFrameDisplay()
      requires fps > 0
      modifies this`currentTime
      ensures currentTime == Seconds(currentFrame, fps)
    {
      currentTime := Seconds(currentFrame, fps);
    }

    /** Steps one frame forward when there is a next frame; playback is left as it is. */
    method NextFrame()
      requires Valid()
      modifies this`currentFrame, this`currentTime
      ensures Valid()
      ensures old(hasVideo) && old(currentFrame) < totalFrames - 1 ==> currentFrame == old(currentFrame) + 1
      ensures !(old(hasVideo) && old(currentFrame) < totalFrames - 1) ==> currentFrame == old(currentFrame)
      ensures currentFrame <= LastFrame(totalFrames)
    {
      if hasVideo && currentFrame < totalFrames - 1 {
        currentFrame := currentFrame + 1;
        UpdateFrameDisplay();
      }
    }

    /** Steps one frame back when not on frame 0, stopping playback; otherwise nothing changes, playback included. */
    method PrevFrame()
      requires Valid()
      modifies this`currentFrame, this`currentTime, this`isPlaying
      ensures Valid()
      ensures old(hasVideo) && old(currentFrame) > 0 ==> currentFrame == old(currentFrame) - 1 && !isPlaying
      ensures !(old(hasVideo) && old(currentFrame) > 0) ==>
        currentFrame == old(currentFrame) && isPlaying == old(isPlaying) && currentTime == old(currentTime)
    {
      if hasVideo && currentFrame > 0 {
        isPlaying := false;
        currentFrame := currentFrame - 1;
        UpdateFrameDisplay();
      }
    }

    /** One tick of the playback loop, as `Tick` describes it; rescheduling the next tick is not modelled. */
    method PlayTick()
      requires Valid()
      modifies this`currentFrame, this`currentTime, this`isPlaying
      ensures Valid()
      ensures Head() == Tick(old(Head()), totalFrames)
    {
      if isPlaying && currentFrame < totalFrames - 1 {
        NextFrame();
      } else {
        isPlaying := false;
      }
    }

    /**
     * The Play/Pause button: with a video open it flips playback; starting
     * playback runs the first tick at once, so starting on the last frame stops
     * again immediately.
     */
    method TogglePlayback()
      requires Valid()
      modifies this`currentFrame, this`currentTime, this`isPlaying
      ensures Valid()
      ensures !old(hasVideo) ==> Head() == old(Head()) && currentTime == old(currentTime)
      ensures old(hasVideo) && old(isPlaying) ==> !isPlaying && currentFrame == old(currentFrame)
      ensures old(hasVideo) && !old(isPlaying) ==> Head() == Tick(Playhead(old(currentFrame), true), totalFrames)
    {
      if !hasVideo {
        return;
      }
      isPlaying := !isPlaying;
      if isPlaying {
        PlayTick();
      }
    }

    /**
     * Dragging the timeline slider to `value` (the slider ranges over
     * [0, totalFrames - 1]): playback stops and the cursor moves to the
     * truncated value.
     */
    method OnTimelineChange(value: real)
      requires Valid()
      requires hasVideo ==> 0.0 <= value <= LastFrame(totalFrames) as real
      modifies this`currentFrame, this`currentTime, this`isPlaying
      ensures Valid()
      ensures old(hasVideo) ==> currentFrame == value.Floor && !isPlaying
      ensures !old(hasVideo) ==> Head() == old(Head()) && currentTime == old(currentTime)
    {
      if hasVideo {
        isPlaying := false;
        currentFrame := value.Floor;
        UpdateFrameDisplay();
      }
    }

    /**
     * A click at pixel `x` of the annotation timeline, `width` pixels wide:
     * playback stops and the cursor moves to `ClickTarget`. The new state depends
     * only on the click and the video, so repeating the click changes nothing.
     */
    method OnTimelineClick(x: int, width: int)
      requires Valid() && width > 0
      modifies this`currentFrame, this`currentTime, this`isPlaying
      ensures Valid()
      ensures old(hasVideo) ==> currentFrame == ClickTarget(x, width, totalFrames) && !isPlaying
      ensures !old(hasVideo) ==> Head() == old(Head()) && currentTime == old(currentTime)
    {
      if !hasVideo {
        return;
      }
      isPlaying := false;
      currentFrame := ClickTarget(x, width, totalFrames);
      UpdateFrameDisplay();
    }

    /**
     * Jumping to the annotation on row `selected` of the annotation list:
     * playback stops and the cursor moves to that row's frame.
     */
    method JumpToAnnotation(selected: Option<nat>) returns (notice: Notice)
      requires Valid()
      requires selected.Some? ==> selected.value < |annotations|
      modifies this`currentFrame, this`currentTime, this`isPlaying
      ensures Valid()
      ensures selected.None? ==> notice == NoSelection && Head() == old(Head()) && currentTime == old(currentTime)
      ensures selected.Some? ==>
        notice == Silent && !isPlaying && currentFrame == ListRows(annotations)[selected.value].frame
    {
      if selected.None? {
        return NoSelection;
      }
      isPlaying := false;
      var frame := ListRows(annotations)[selected.value].frame;
      SortedStoreValid(annotations, LastFrame(totalFrames));
      assert SortByFrame(annotations)[selected.value] in SortByFrame(annotations);
      currentFrame := frame;
      UpdateFrameDisplay();
      notice := Silent;
    }

    /**
     * The frame rate typed into the FPS field (None when it is not an integer):
     * a positive value replaces the rate and the current time is recomputed;
     * anything else leaves the state as it is.
     */
    method UpdateFps(entry: Option<int>)
      requires Valid()
      modifies this`fps, this`frameDuration, this`currentTime
      ensures Valid()
      ensures entry.Some? && entry.value > 0 ==> fps == entry.value && frameDuration == FrameDelay(entry.value)
      ensures !(entry.Some? && entry.value > 0) ==>
        fps == old(fps) && frameDuration == old(frameDuration) && currentTime == old(currentTime)
    {
      if entry.Some? && entry.value > 0 {
        fps := entry.value;
        frameDuration := FrameDelay(fps);
        currentTime := Seconds(currentFrame, fps);
      }
    }

    /**
     * Adding an annotation from the input fields: refused without a video or
     * with a blank text; otherwise exactly one record is appended, carrying the
     * old store length as id, the current frame and time, the stripped text and
     * comment, the category and its colour.
     */
    method AddAnnotation(text: string, comment: string, category: string) returns (notice: Notice)
      requires Valid()
      requires category in Categories.Colors
      modifies this`annotations
      ensures Valid()
      ensures !hasVideo ==> notice == NoVideo && annotations == old(annotations)
      ensures hasVideo && Blank(text) ==> notice == EmptyText && annotations == old(annotations)
      ensures hasVideo && !Blank(text) ==>
        notice == Added &&
        annotations == old(annotations) + [Annotation(|old(annotations)|, currentFrame, currentTime,
                                                      Strip(text), Strip(comment), category, Categories.Colors[category])]
    {
      if !hasVideo {
        return NoVideo;
      }
      var annotationText := Strip(text);
      if annotationText == [] {
        return EmptyText;
      }
      var commentText := Strip(comment);
      var annotation := Annotation(|annotations|, currentFrame, currentTime, annotationText,
                                   commentText, category, Categories.Colors[category]);
      ghost var lastFrame := LastFrame(totalFrames);
      assert WellFormed(annotation, lastFrame);
      StoreValidAppend(annotations, annotation, lastFrame);
      annotations := annotations + [annotation];
      assert StoreValid(annotations, lastFrame);
      notice := Added;
    }

    /**
     * Deleting with row `selected` of the annotation list selected: after
     * confirmation, every record on that row's frame is removed, not only the
     * selected one; the others keep their order.
     */
    method DeleteAnnotation(selected: Option<nat>, confirmed: bool) returns (notice: Notice)
      requires Valid()
      requires selected.Some? ==> selected.value < |annotations|
      modifies this`annotations
      ensures Valid()
      ensures selected.None? ==> notice == NoSelection && annotations == old(annotations)
      ensures selected.Some? && !confirmed ==> notice == Silent && annotations == old(annotations)
      ensures selected.Some? && confirmed ==>
        notice == Deleted &&
        annotations == WithoutFrame(old(annotations), ListRows(old(annotations))[selected.value].frame)
    {
      if selected.None? {
        return NoSelection;
      }
      if !confirmed {
        return Silent;
      }
      var frame := ListRows(annotations)[selected.value].frame;
      annotations := WithoutFrame(annotations, frame);
      notice := Deleted;
    }

    /**
     * Editing the annotation on row `selected` of the annotation list, then
     * saving `changes` (None when the dialog is cancelled). The record edited is
     * the first in store order on that row's frame; saving replaces its category,
     * text, comment (stripped) and colour, and keeps its id, frame and time and
     * every other record.
     */
    method EditAnnotation(selected: Option<nat>, changes: Option<Changes>) returns (notice: Notice)
      requires Valid()
      requires selected.Some? ==> selected.value < |annotations|
      requires changes.Some? ==> changes.value.category in Categories.Colors
      modifies this`annotations
      ensures Valid()
      ensures selected.None? ==> notice == NoSelection
      ensures selected.Some? && changes.None? ==> notice == Silent
      ensures selected.Some? && changes.Some? ==> notice.Updated?
      ensures !notice.Updated? ==> annotations == old(annotations)
      ensures notice.Updated? ==>
        selected.Some? && changes.Some? &&
        var i, f, c := notice.index, ListRows(old(annotations))[selected.value].frame, changes.value;
        i < |old(annotations)| && old(annotations)[i].frame == f &&
        (forall j :: 0 <= j < i ==> old(annotations)[j].frame != f) &&
        |annotations| == |old(annotations)| &&
        (forall j :: 0 <= j < |annotations| && j != i ==> annotations[j] == old(annotations)[j]) &&
        annotations[i].id == old(annotations)[i].id &&
        annotations[i].frame == f &&
        annotations[i].time == old(annotations)[i].time &&
        annotations[i].category == c.category &&
        annotations[i].text == c.text &&
        annotations[i].comment == Strip(c.comment) &&
        annotations[i].color == Categories.Colors[c.category]
    {
      if selected.None? {
        return NoSelection;
      }
      var frame := ListRows(annotations)[selected.value].frame;
      ListedFrameStored(annotations, selected.value);
      var found := FindFirstAtFrame(annotations, frame);
      if found.None? {
        // the selected row's frame is a stored record's frame
        assert false;
        return NotFound;
      }
      if changes.None? {
        return Silent;
      }
      var i, c := found.value, changes.value;
      var current := annotations[i];
      var edited := current.(category := c.category, text := c.text, comment := Strip(c.comment),
                          color := Categories.Colors[c.category]);
      assert current in annotations;
      assert WellFormed(edited, LastFrame(totalFrames));
      StoreValidUpdate(annotations, i, edited, LastFrame(totalFrames));
      annotations := annotations[i := edited];
      notice := Updated(i);
    }

    /**
     * Exporting: refused when the store is empty; otherwise, once a file is
     * chosen, the rows written are `ExportRows` of the store.
     */
    method ExportCsv(fileChosen: bool) returns (notice: Notice, rows: Option<seq<CsvRow>>)
      ensures annotations == [] ==> notice == NothingToExport && rows.None?
      ensures annotations != [] && !fileChosen ==> notice == Silent && rows.None?
      ensures annotations != [] && fileChosen ==> notice == Exported && rows == Some(ExportRows(annotations))
    {
      if annotations == [] {
        return NothingToExport, None;
      }
      if !fileChosen {
        return Silent, None;
      }
      return Exported, Some(ExportRows(annotations));
    }

    /**
     * Loading an annotation file. Refused, with the store unchanged, without a
     * video, when no table was read, when the header has an unknown column, or
     * when replacing a non-empty store is not confirmed. Otherwise the store
     * becomes what the row loop builds, and the loaded and skipped counts add up
     * to the number of rows.
     */
    method LoadAnnotations(file: CsvFile, confirmReplace: bool) returns (notice: Notice)
      requires Valid()
      modifies this`annotations
      ensures Valid()
      ensures !notice.Loaded? ==> annotations == old(annotations)
      ensures !hasVideo ==> notice == NoVideo
      ensures hasVideo && file.DialogCancelled? ==> notice == Silent
      ensures hasVideo && file.Unreadable? ==> notice == ReadFailed
      ensures hasVideo && file.Read? && Import.UnknownColumns(file.table.columns) != [] ==>
        notice == ColumnError(Import.UnknownColumns(file.table.columns))
      ensures hasVideo && file.Read? && Import.UnknownColumns(file.table.columns) == [] ==>
        if old(annotations) != [] && !confirmReplace then notice == Silent
        else
          annotations == Import.Imported(file.table.columns, file.table.rows, totalFrames) &&
          notice == Loaded(|annotations|, |file.table.rows| - |annotations|)
    {
      if !hasVideo {
        return NoVideo;
      }
      match file
      case DialogCancelled =>
        return Silent;
      case Unreadable =>
        return ReadFailed;
      case Read(table) =>
        var unknown := Import.UnknownColumns(table.columns);
        if unknown != [] {
          return ColumnError(unknown);
        }
        if annotations != [] && !confirmReplace {
          return Silent;
        }
        var records, loaded, skipped := Import.ImportRows(table.columns, table.rows, totalFrames);
        annotations := records;
        notice := Loaded(loaded, skipped);
    }
  }
}

=== FILE: wrappers.dfy ===
/** An optional value: a cell that may be empty, a parse that may fail, a selection that may be absent. */
module Wrappers {

  datatype Option<+T> = None | Some(value: T) {

    /** The value, or `default` when there is none. */
    function GetOr(default: T): T {
      match this
      case Some(v) => v
      case None => default
    }
  }
}
